=== FILE: README.md ===
# GIF pet: bounce physics and single-panel lifecycle

This project models the two pieces of the `samgakee` editor extension that
have behaviour to state. Both are in `src/extension.ts`.

- **The bounce animation** of the webview script. The script keeps a position
  `(x, y)` and a velocity `(dx, dy)`. The start position is a random fraction of
  `innerWidth - 150` and `innerHeight - 150`, and the velocity starts at
  `(2, 2)`. Every animation frame negates each velocity component whose pre-move
  coordinate is at or past an edge (`<= 0` or `>= viewport - sprite`). It then
  adds the new velocity to the position, without clamping. A resize clamps the
  position into `[0, viewport - sprite]` and keeps the velocity.
- **The single-panel command.** The command `samgakee.create` reveals the stored
  panel if there is one. Otherwise it creates a panel and stores it. The panel's
  dispose handler clears the stored panel.

Files:

- `bounce.dfy` (module `Bounce`) holds the frame, the clamp, the start state,
  and runs of frames and resize events as functions on values, with the
  lemmas about them.
- `sprite.dfy` (module `Webview`) holds class `Sprite`, whose fields are the
  script's four variables. Its methods update the fields in place and are
  proved equal to the `Bounce` functions. `Animate` runs `n` frames and
  `Play` runs a sequence of events, each as a loop.
- `panels.dfy` (module `Extension`) holds the panel registry as a value
  (`Invoke`, `Dispose`, sessions of user actions) and class `Controller`,
  which updates `currentPanel` in place.

Coordinates are exact `real` numbers. The viewport and sprite dimensions that
the script reads from the page, and the two values drawn from `Math.random()`,
are parameters.

Two consequences of the code as written are proved.

- **Bounded overshoot.** `Bounce.RunStaysConfined` makes four assumptions:
  - the run starts confined. The script's start state is confined when the
    sprite is at most 150x150 and the viewport is larger than 150 each way
    (`Bounce.InitialConfined`). A sprite more than 150 pixels high breaks
    this. A taller GIF gives one, since the image's height is automatic. Even
    a square GIF can give one, through the gap the container leaves under an
    inline image. Such a sprite can start below the bottom limit and stay
    there for good (`Bounce.TallSpriteStartsStranded`);
  - every viewport change reaches the script as a resize event before the
    next frame;
  - the sprite fits every viewport;
  - the sprite's size does not change during the run.

  Under those assumptions the sprite is never more than 2 pixels (one frame of
  travel) outside the viewport. When it is outside, its last move was outward,
  and the next frame's edge test reverses it. If the viewport leaves at least 2
  pixels of slack on that axis, the overshoot lasts a single frame
  (`Bounce.OvershootLastsOneFrame`). With less slack, a sprite can be outside on
  every frame (`Bounce.NarrowSlackStaysOutside`). The size assumption matters:
  the script reads the sprite's size on every frame, and an image that grows
  with no resize event can leave the sprite stranded below the bottom edge
  (`Bounce.SpriteGrowthStrands`).
- **Edge trap.** The edge test looks only at the pre-move position, not at the
  direction of travel. Take a sprite at `x = 0` moving right. This happens when
  `Math.random()` returns 0, and for every draw when `innerWidth` is exactly
  150, since then `x = r * 0`. Its velocity is turned outward, it moves to `-2`,
  and on the next frame it is turned back to `0`. This repeats forever
  (`Bounce.LeftEdgeTrap`). A sprite on or past the right edge moving left is
  trapped in the same way (`Bounce.RightEdgeTrap`), and so is one on or below
  the bottom edge moving up (`Bounce.BottomEdgeTrap`). A resize that narrows the
  viewport under a sprite moving left puts it in that state
  (`Bounce.ResizeSetsRightTrap`).

## Model

| member | source | states |
|---|---|---|
| Bounce.Reflect | src/extension.ts:100-105 | the speed is kept; the component is negated when the pre-move coordinate is at or past an edge and kept otherwise |
| Bounce.Step | src/extension.ts:93-108 | one frame keeps both speeds; each coordinate moves by its post-reflection velocity, with no clamp |
| Bounce.Clamp | src/extension.ts:118-119 | `min(max(p, 0), limit)` lies in `[0, limit]` when `limit >= 0`; it leaves an in-range value alone; a value above `limit` goes to `limit`, and one below 0 goes to 0 when `limit >= 0`; it yields `limit` when `limit < 0` |
| Bounce.Clamped | src/extension.ts:115-120 | a resize keeps the velocity; when the sprite fits, it places the position inside `[0, W - w] x [0, H - h]`; a coordinate past the far edge moves onto it (`W - w` or `H - h`), and one below 0 moves to 0 when the sprite fits that axis |
| Bounce.Initial | src/extension.ts:87-91 | the start velocity is `(2, 2)`; given random fractions in `[0, 1)`, `0 <= x < W - 150` when `W > 150`, and likewise for `y` |
| Bounce.StepFlipsExactlyAtEdges | src/extension.ts:100-105 | each velocity component is negated if and only if its pre-move coordinate is `<= 0` or `>= max`, each axis on its own |
| Bounce.InteriorMovesStraight | src/extension.ts:100-108 | strictly inside the bounds, a frame keeps the velocity and moves by exactly `(dx, dy)` |
| Bounce.KnownFrames | src/extension.ts:97-108 | with viewport 800x600 and sprite 150x150: `(650,100,2,2)` becomes `(648,102,-2,2)`; `(0,0,2,2)` becomes `(-2,-2,-2,-2)`; `(650,450,2,2)` becomes `(648,448,-2,-2)` |
| Bounce.ClampedIdempotent | src/extension.ts:118-119 | clamping twice gives the same state as clamping once |
| Bounce.ClampedKeepsInside | src/extension.ts:118-119 | a resize leaves a sprite that is already in range unchanged |
| Bounce.RunKeepsSpeed | src/extension.ts:90-120 | after any sequence of frames and resizes, `abs(dx)` and `abs(dy)` equal their starting values; only the signs change |
| Bounce.FramesIsRun | src/extension.ts:93-113 | `n` frames in one viewport equal a run of `n` frame events and no resize |
| Bounce.FramesKeepSpeed | src/extension.ts:93-113 | any number of frames in one viewport keeps both speeds |
| Bounce.StepKeepsConfined | src/extension.ts:97-108 | a frame keeps the sprite within 2 pixels of the bounds; when it is outside them, its last move was outward |
| Bounce.OvershootLastsOneFrame | src/extension.ts:100-108 | after a coordinate passes an edge, the next frame moves it back to within `[0, limit + 2]` or `[-2, limit]`; with at least 2 pixels of slack it lands inside `[0, limit]` |
| Bounce.NarrowSlackStaysOutside | src/extension.ts:97-108 | in a 151-pixel viewport a confined 150-pixel sprite alternates between `-0.5` and `1.5`, outside on every frame |
| Bounce.ClampedConfined | src/extension.ts:115-120 | a resize to a viewport the sprite fits, with speeds 2, leaves the sprite confined |
| Bounce.RunStaysConfined | src/extension.ts:93-120 | from a confined start, through coherent frames and resizes, `-2 <= x <= W - w + 2` and `-2 <= y <= H - h + 2` for the latest viewport |
| Bounce.InitialConfined | src/extension.ts:87-91 | the start state is confined when the sprite is at most 150x150 and the viewport is larger than 150 each way |
| Bounce.LeftEdgeTrap | src/extension.ts:100-108 | a sprite at `x = 0` moving right is at `x = 0` after every even number of frames and at `x = -2` after every odd number |
| Bounce.RightEdgeTrap | src/extension.ts:100-108 | a sprite at `x >= W - w` moving left alternates between `x` and `x + 2` forever |
| Bounce.BottomEdgeTrap | src/extension.ts:103-108 | a sprite at `y >= H - h` moving up alternates between `y` and `y + 2` forever |
| Bounce.ResizeSetsRightTrap | src/extension.ts:100-120 | a resize that narrows the viewport under a sprite moving left clamps it onto `x = W - w`, where it stays after every even number of frames |
| Bounce.SpriteGrowthStrands | src/extension.ts:94-108 | a sprite confined for a 150x18 image is not confined for a 150x150 one, and with that size, in a 600-pixel viewport, it is at `y = 580` after every even number of frames, below the bottom edge forever |
| Bounce.TallSpriteStartsStranded | src/extension.ts:74-108 | the start state drawn for a 150x200 sprite in an 800x600 viewport is at `y = 440` and not confined; after the first frame, it is at `y = 438` after every even number of further frames, below the bottom limit of 400 forever |
| Webview.Sprite.constructor | src/extension.ts:87-91 | the variables start at the state `Initial` gives for the drawn fractions |
| Webview.Sprite.Tick | src/extension.ts:93-110 | the in-place frame update yields exactly `Step` of the old state |
| Webview.Sprite.Resize | src/extension.ts:115-120 | the in-place resize update yields exactly `Clamped` of the old state |
| Webview.Sprite.Animate | src/extension.ts:93-113 | `n` rescheduled frames yield `Frames` of the old state |
| Webview.Sprite.Play | src/extension.ts:93-122 | a sequence of frames and resize events yields `Run` of the old state |
| Extension.Activated | src/extension.ts:4 | at activation no panel is stored or open |
| Extension.Invoke | src/extension.ts:12-32 | afterwards a panel is stored; it reveals if and only if a panel was stored, and then changes nothing; otherwise it creates exactly one panel, with a handle never issued before; it keeps at most one panel open |
| Extension.Dispose | src/extension.ts:35-38 | disposal clears the stored panel and closes that panel; afterwards no panel is open |
| Extension.InvokeIdempotent | src/extension.ts:14-17 | invoking the command a second time reveals the panel the first invocation produced and creates nothing |
| Extension.ReopenCreatesFresh | src/extension.ts:14-38 | after the stored panel is disposed, the next invocation creates a new panel, different from the old one, and stores it |
| Extension.SessionKeepsOnePanel | src/extension.ts:4-41 | through any sequence of commands and closes, at most one panel is open, and it is the stored one |
| Extension.Controller.constructor | src/extension.ts:4 | the controller starts in the activated state |
| Extension.Controller.Command | src/extension.ts:12-42 | the in-place handler gives exactly the state and outcome of `Invoke` |
| Extension.Controller.Disposed | src/extension.ts:35-38 | the in-place dispose handler gives exactly the state of `Dispose` |

## Left out

- Markup generation and asset URI resolution (`getWebviewContent`, src/extension.ts:49-83): these build strings with host calls and contain no logic.
- The host API (`registerCommand`, `createWebviewPanel`, `reveal`, `onDidDispose`, `context.subscriptions`): these become abstract actions on the registry. A panel is a number; showing and focusing it are not modelled.
- Frame scheduling with `requestAnimationFrame`: the endless self-rescheduling becomes a bounded run of `n` frames or a finite event sequence.
- Page reads and writes: `offsetWidth`/`offsetHeight` and `innerWidth`/`innerHeight` are parameters, and the `style.left`/`style.top` writes are not modelled.
- `Math.random()`: its two results are parameters, required to lie in `[0, 1)`.
- IEEE-754 rounding and `NaN`: the arithmetic is exact over the reals.
- `console.log`, the unused `gif_route` constant and the empty `deactivate`: they have no effect on the state.
- Bounce.Run: the sprite size is fixed for a run, but the script re-reads `offsetWidth`/`offsetHeight` on every frame and resize. The size can change without a resize event, for example when an image of automatic height loads. `Bounce.RunStaysConfined` therefore does not cover a changing size, and `Bounce.SpriteGrowthStrands` shows that the bound fails without this assumption.
- Extension.Dispose: requires that the disposed panel is open, because the host runs the dispose handler only for a panel it is closing.

=== FILE: bounce.dfy ===
/**
 * The bounce physics of the GIF pet's webview script (src/extension.ts,
 * lines 84-123), stated as pure functions on values: one animation frame,
 * the resize clamp, the random start state, and a run of frames and
 * resize events. The class in sprite.dfy performs the same updates in place
 * and is proved against these functions.
 */
module Bounce {

  /** Speed of the sprite along each axis, in pixels per frame. */
  const Speed: real := 2.0

  /** The image's CSS width, subtracted from both `innerWidth` and `innerHeight` when the start position is drawn. */
  const StartMargin: real := 150.0

  /** A width and a height: the viewport (innerWidth, innerHeight) or the sprite (offsetWidth, offsetHeight). */
  datatype Box = Box(width: real, height: real)

  /** The script's four mutable variables: the top-left corner and the velocity. */
  datatype Motion = Motion(x: real, y: real, dx: real, dy: real)

  /** What can happen to the sprite: an animation frame or a resize event, each seeing the live viewport. */
  datatype Event = Frame(view: Box) | Resized(view: Box)

  function Abs(v: real): (a: real) {
    if v < 0.0 then -v else v
  }

  /** True when the pre-move coordinate `p` is on or past either edge of `[0, limit]`. */
  predicate AtEdge(p: real, limit: real) {
    p >= limit || p <= 0.0
  }

  /** The velocity component after the edge test of one axis. */
  function Reflect(p: real, v: real, limit: real): (w: real)
    ensures Abs(w) == Abs(v)
    ensures AtEdge(p, limit) ==> w + v == 0.0
    ensures !AtEdge(p, limit) ==> w == v
  {
    if AtEdge(p, limit) then -v else v
  }

  /** One call of `animateGif`: reflect each velocity component on the pre-move position, then move by the new velocity. */
  function Step(m: Motion, view: Box, size: Box): (n: Motion)
    ensures Abs(n.dx) == Abs(m.dx) && Abs(n.dy) == Abs(m.dy)
    ensures n.x - m.x == n.dx && n.y - m.y == n.dy
  {
    var maxX := view.width - size.width;
    var maxY := view.height - size.height;
    var dx := Reflect(m.x, m.dx, maxX);
    var dy := Reflect(m.y, m.dy, maxY);
    Motion(m.x + dx, m.y + dy, dx, dy)
  }

  /** `Math.min(Math.max(p, 0), limit)`: when `limit` is negative the result is `limit`. */
  function Clamp(p: real, limit: real): (q: real)
    ensures 0.0 <= limit ==> 0.0 <= q <= limit
    ensures 0.0 <= p <= limit ==> q == p
    ensures limit < 0.0 ==> q == limit
    ensures 0.0 <= limit && p < 0.0 ==> q == 0.0
    ensures p > limit ==> q == limit
  {
    var lifted := if p > 0.0 then p else 0.0;
    if lifted < limit then lifted else limit
  }

  /** The resize listener: clamp the position into the new viewport, keep the velocity. */
  function Clamped(m: Motion, view: Box, size: Box): (n: Motion)
    ensures n.dx == m.dx && n.dy == m.dy
    ensures size.width <= view.width ==> 0.0 <= n.x <= view.width - size.width
    ensures size.height <= view.height ==> 0.0 <= n.y <= view.height - size.height
    ensures m.x > view.width - size.width ==> n.x == view.width - size.width
    ensures size.width <= view.width && m.x < 0.0 ==> n.x == 0.0
    ensures m.y > view.height - size.height ==> n.y == view.height - size.height
    ensures size.height <= view.height && m.y < 0.0 ==> n.y == 0.0
  {
    Motion(Clamp(m.x, view.width - size.width), Clamp(m.y, view.height - size.height), m.dx, m.dy)
  }

  /** The start state: a random fraction of `innerWidth - 150` (and of `innerHeight - 150`), moving at speed 2 down and to the right. */
  function Initial(view: Box, rx: real, ry: real): (m: Motion)
    requires 0.0 <= rx < 1.0 && 0.0 <= ry < 1.0
    ensures m.dx == Speed && m.dy == Speed
    ensures StartMargin < view.width ==> 0.0 <= m.x < view.width - StartMargin
    ensures StartMargin < view.height ==> 0.0 <= m.y < view.height - StartMargin
  {
    var spanX, spanY := view.width - StartMargin, view.height - StartMargin;
    FractionBelow(rx, spanX);
    FractionBelow(ry, spanY);
    Motion(rx * spanX, ry * spanY, Speed, Speed)
  }

  lemma FractionBelow(r: real, span: real)
    requires 0.0 <= r < 1.0
    ensures 0.0 < span ==> 0.0 <= r * span < span
  {
  }

  /** The effect of one event on the sprite. */
  function Apply(m: Motion, size: Box, e: Event): (n: Motion) {
    match e
    case Frame(view) => Step(m, view, size)
    case Resized(view) => Clamped(m, view, size)
  }

  /** The sprite after the events of `es`, oldest first. */
  function Run(m: Motion, size: Box, es: seq<Event>): (n: Motion)
    decreases |es|
  {
    if es == [] then m else Apply(Run(m, size, es[..|es| - 1]), size, es[|es| - 1])
  }

  /** `n` frames in a viewport that does not change. */
  function Frames(m: Motion, view: Box, size: Box, n: nat): (f: Motion) {
    if n == 0 then m else Step(Frames(m, view, size, n - 1), view, size)
  }

  /** `n` frame events, all seeing `view`. */
  function Ticks(view: Box, n: nat): (es: seq<Event>)
    ensures |es| == n
  {
    seq(n, _ => Frame(view))
  }

  /** Repeated frames are the special case of a run that has no resize. */
  lemma {:induction false} FramesIsRun(m: Motion, view: Box, size: Box, n: nat)
    ensures Frames(m, view, size, n) == Run(m, size, Ticks(view, n))
  {
    if n > 0 {
      FramesIsRun(m, view, size, n - 1);
      assert Ticks(view, n)[..n - 1] == Ticks(view, n - 1);
    }
  }

  // ---------------------------------------------------------------------
  // One frame
  // ---------------------------------------------------------------------

  /** A frame negates a velocity component exactly when the pre-move coordinate is at or past an edge; the axes decide independently. */
  lemma StepFlipsExactlyAtEdges(m: Motion, view: Box, size: Box)
    requires m.dx != 0.0 && m.dy != 0.0
    ensures var n := Step(m, view, size);
      && (n.dx == -m.dx <==> (m.x >= view.width - size.width || m.x <= 0.0))
      && (n.dx == m.dx <==> !(m.x >= view.width - size.width || m.x <= 0.0))
      && (n.dy == -m.dy <==> (m.y >= view.height - size.height || m.y <= 0.0))
      && (n.dy == m.dy <==> !(m.y >= view.height - size.height || m.y <= 0.0))
  {
  }

  /** Strictly inside the viewport, a frame keeps the velocity and moves by exactly it. */
  lemma InteriorMovesStraight(m: Motion, view: Box, size: Box)
    requires 0.0 < m.x < view.width - size.width
    requires 0.0 < m.y < view.height - size.height
    ensures Step(m, view, size) == Motion(m.x + m.dx, m.y + m.dy, m.dx, m.dy)
  {
  }

  /** Frames worked out by hand in an 800x600 viewport with a 150x150 sprite: a bounce off the right edge, the overshoot at the left edge, and a corner bounce. */
  lemma KnownFrames()
    ensures Step(Motion(650.0, 100.0, 2.0, 2.0), Box(800.0, 600.0), Box(150.0, 150.0))
         == Motion(648.0, 102.0, -2.0, 2.0)
    ensures Step(Motion(0.0, 0.0, 2.0, 2.0), Box(800.0, 600.0), Box(150.0, 150.0))
         == Motion(-2.0, -2.0, -2.0, -2.0)
    ensures Step(Motion(650.0, 450.0, 2.0, 2.0), Box(800.0, 600.0), Box(150.0, 150.0))
         == Motion(648.0, 448.0, -2.0, -2.0)
  {
  }

  // ---------------------------------------------------------------------
  // The resize clamp
  // ---------------------------------------------------------------------

  /** Clamping twice is clamping once. */
  lemma ClampedIdempotent(m: Motion, view: Box, size: Box)
    ensures Clamped(Clamped(m, view, size), view, size) == Clamped(m, view, size)
  {
  }

  /** A sprite already inside the viewport is left where it is. */
  lemma ClampedKeepsInside(m: Motion, view: Box, size: Box)
    requires 0.0 <= m.x <= view.width - size.width
    requires 0.0 <= m.y <= view.height - size.height
    ensures Clamped(m, view, size) == m
  {
  }

  // ---------------------------------------------------------------------
  // Many events
  // ---------------------------------------------------------------------

  /** No frame and no resize ever changes a speed; only the signs of the velocity change. */
  lemma {:induction false} RunKeepsSpeed(m: Motion, size: Box, es: seq<Event>)
    ensures Abs(Run(m, size, es).dx) == Abs(m.dx)
    ensures Abs(Run(m, size, es).dy) == Abs(m.dy)
    decreases |es|
  {
    if es != [] {
      RunKeepsSpeed(m, size, es[..|es| - 1]);
    }
  }

  /** Any number of frames in one viewport keeps the speeds. */
  lemma {:induction false} FramesKeepSpeed(m: Motion, view: Box, size: Box, n: nat)
    ensures Abs(Frames(m, view, size, n).dx) == Abs(m.dx)
    ensures Abs(Frames(m, view, size, n).dy) == Abs(m.dy)
  {
    FramesIsRun(m, view, size, n);
    RunKeepsSpeed(m, size, Ticks(view, n));
  }

  /**
   * One axis of a sprite that bounces properly: its speed is 2, it is at most one
   * frame's travel outside `[0, limit]`, and when it is outside, its last move was
   * outward, so the next frame's edge test reverses it.
   */
  predicate AxisConfined(p: real, v: real, limit: real) {
    && 0.0 <= limit
    && (v == Speed || v == -Speed)
    && -Speed <= p <= limit + Speed
    && (p < 0.0 ==> v == -Speed)
    && (p > limit ==> v == Speed)
  }

  predicate Confined(m: Motion, view: Box, size: Box) {
    && AxisConfined(m.x, m.dx, view.width - size.width)
    && AxisConfined(m.y, m.dy, view.height - size.height)
  }

  lemma AxisStepConfined(p: real, v: real, limit: real)
    requires AxisConfined(p, v, limit)
    ensures AxisConfined(p + Reflect(p, v, limit), Reflect(p, v, limit), limit)
  {
  }

  /** A frame keeps a confined sprite confined. */
  lemma StepKeepsConfined(m: Motion, view: Box, size: Box)
    requires Confined(m, view, size)
    ensures Confined(Step(m, view, size), view, size)
  {
    AxisStepConfined(m.x, m.dx, view.width - size.width);
    AxisStepConfined(m.y, m.dy, view.height - size.height);
  }

  /**
   * After an overshoot the next frame moves the coordinate back towards the viewport;
   * when the viewport leaves at least 2 pixels of slack on that axis, it lands inside.
   */
  lemma OvershootLastsOneFrame(m: Motion, view: Box, size: Box)
    requires Confined(m, view, size)
    ensures var n, limitX, limitY := Step(m, view, size), view.width - size.width, view.height - size.height;
      && (m.x < 0.0 ==> 0.0 <= n.x <= limitX + Speed)
      && (m.x > limitX ==> -Speed <= n.x <= limitX)
      && (m.y < 0.0 ==> 0.0 <= n.y <= limitY + Speed)
      && (m.y > limitY ==> -Speed <= n.y <= limitY)
      && (Speed <= limitX && (m.x < 0.0 || m.x > limitX) ==> 0.0 <= n.x <= limitX)
      && (Speed <= limitY && (m.y < 0.0 || m.y > limitY) ==> 0.0 <= n.y <= limitY)
  {
  }

  /**
   * With less than 2 pixels of slack a confined sprite can be outside on every frame:
   * in a viewport 151 pixels wide a 150-pixel sprite alternates between -0.5 and 1.5.
   */
  lemma NarrowSlackStaysOutside()
    ensures var m, view, size := Motion(-0.5, 100.0, -2.0, 2.0), Box(151.0, 500.0), Box(150.0, 150.0);
      && Confined(m, view, size)
      && Step(m, view, size).x > view.width - size.width
      && Step(Step(m, view, size), view, size).x == m.x
      && Step(Step(m, view, size), view, size).dx == m.dx
  {
  }

  /** A resize into a viewport the sprite fits in confines a sprite moving at speed 2. */
  lemma ClampedConfined(m: Motion, view: Box, size: Box)
    requires Abs(m.dx) == Speed && Abs(m.dy) == Speed
    requires size.width <= view.width && size.height <= view.height
    ensures Confined(Clamped(m, view, size), view, size)
  {
  }

  /** The viewport the sprite last saw: that of the latest resize in `es`, or `view` if there was none. */
  function Latest(view: Box, es: seq<Event>): (v: Box)
    decreases |es|
  {
    if es == [] then view
    else match es[|es| - 1]
      case Resized(v) => v
      case Frame(_) => Latest(view, es[..|es| - 1])
  }

  predicate Fits(size: Box, view: Box) {
    size.width <= view.width && size.height <= view.height
  }

  /**
   * Events as the browser delivers them: every viewport change is announced by a
   * resize event before the next frame, and every viewport holds the sprite.
   */
  predicate Coherent(view: Box, size: Box, es: seq<Event>)
    decreases |es|
  {
    es == [] ||
    (Coherent(view, size, es[..|es| - 1]) &&
     match es[|es| - 1]
     case Frame(v) => v == Latest(view, es[..|es| - 1])
     case Resized(v) => Fits(size, v))
  }

  /**
   * The bounds property of the bounce: from a confined start, through any frames and
   * resizes, the sprite stays within one frame's travel (2 pixels) of the current viewport.
   */
  lemma {:induction false} RunStaysConfined(m: Motion, view: Box, size: Box, es: seq<Event>)
    requires Confined(m, view, size)
    requires Coherent(view, size, es)
    ensures Confined(Run(m, size, es), Latest(view, es), size)
    ensures var n, v := Run(m, size, es), Latest(view, es);
      -Speed <= n.x <= v.width - size.width + Speed && -Speed <= n.y <= v.height - size.height + Speed
    decreases |es|
  {
    if es != [] {
      var prefix := es[..|es| - 1];
      RunStaysConfined(m, view, size, prefix);
      var before := Run(m, size, prefix);
      match es[|es| - 1]
      case Frame(v) =>
        StepKeepsConfined(before, v, size);
      case Resized(v) =>
        ClampedConfined(before, v, size);
    }
  }

  /** The script's start state is confined when the sprite is at most 150 pixels each way and fits the viewport. */
  lemma InitialConfined(view: Box, size: Box, rx: real, ry: real)
    requires 0.0 <= rx < 1.0 && 0.0 <= ry < 1.0
    requires size.width <= StartMargin < view.width && size.height <= StartMargin < view.height
    ensures Confined(Initial(view, rx, ry), view, size)
  {
  }

  /**
   * The pre-move edge test does not look at the direction of travel: a sprite on the
   * left edge moving right is turned back out, and then back in, every other frame, so
   * it never leaves the edge.
   */
  lemma {:induction false} LeftEdgeTrap(m: Motion, view: Box, size: Box, n: nat)
    requires m.x == 0.0 && m.dx == Speed
    ensures Frames(m, view, size, 2 * n).x == 0.0 && Frames(m, view, size, 2 * n).dx == Speed
    ensures Frames(m, view, size, 2 * n + 1).x == -Speed && Frames(m, view, size, 2 * n + 1).dx == -Speed
  {
    if n > 0 {
      LeftEdgeTrap(m, view, size, n - 1);
      assert Frames(m, view, size, 2 * n) == Step(Frames(m, view, size, 2 * n - 1), view, size);
    }
  }

  /** The same trap at the right edge: a sprite on or past that edge moving left is turned back out every other frame. */
  lemma {:induction false} RightEdgeTrap(m: Motion, view: Box, size: Box, n: nat)
    requires m.x >= view.width - size.width && m.dx == -Speed
    ensures Frames(m, view, size, 2 * n).x == m.x && Frames(m, view, size, 2 * n).dx == -Speed
    ensures Frames(m, view, size, 2 * n + 1).x == m.x + Speed && Frames(m, view, size, 2 * n + 1).dx == Speed
  {
    if n > 0 {
      RightEdgeTrap(m, view, size, n - 1);
      assert Frames(m, view, size, 2 * n) == Step(Frames(m, view, size, 2 * n - 1), view, size);
    }
  }

  /** The same trap at the bottom edge: a sprite on or below that edge moving up is turned back down every other frame. */
  lemma {:induction false} BottomEdgeTrap(m: Motion, view: Box, size: Box, n: nat)
    requires m.y >= view.height - size.height && m.dy == -Speed
    ensures Frames(m, view, size, 2 * n).y == m.y && Frames(m, view, size, 2 * n).dy == -Speed
    ensures Frames(m, view, size, 2 * n + 1).y == m.y + Speed && Frames(m, view, size, 2 * n + 1).dy == Speed
  {
    if n > 0 {
      BottomEdgeTrap(m, view, size, n - 1);
      assert Frames(m, view, size, 2 * n) == Step(Frames(m, view, size, 2 * n - 1), view, size);
    }
  }

  /** A resize that narrows the viewport under a sprite moving left clamps it onto the right edge, where it stays. */
  lemma ResizeSetsRightTrap(m: Motion, view: Box, size: Box)
    requires m.x > view.width - size.width && m.dx == -Speed
    ensures Clamped(m, view, size).x == view.width - size.width
    ensures forall k: nat :: k % 2 == 0 ==>
      Frames(Clamped(m, view, size), view, size, k).x == view.width - size.width
  {
    var c := Clamped(m, view, size);
    forall k: nat | k % 2 == 0
      ensures Frames(c, view, size, k).x == view.width - size.width
    {
      RightEdgeTrap(c, view, size, k / 2);
      assert 2 * (k / 2) == k;
    }
  }

  /**
   * The sprite size is read on every frame. A sprite that is confined while the image
   * is 18 pixels high and then grows to 150 pixels with no resize event is left 130
   * pixels below the bottom edge and stays there.
   */
  lemma SpriteGrowthStrands()
    ensures var m, view := Motion(100.0, 580.0, 2.0, -2.0), Box(800.0, 600.0);
      && Confined(m, view, Box(150.0, 18.0))
      && !Confined(m, view, Box(150.0, 150.0))
      && forall k: nat :: k % 2 == 0 ==> Frames(m, view, Box(150.0, 150.0), k).y == 580.0
  {
    var m, view, size := Motion(100.0, 580.0, 2.0, -2.0), Box(800.0, 600.0), Box(150.0, 150.0);
    forall k: nat | k % 2 == 0
      ensures Frames(m, view, size, k).y == 580.0
    {
      BottomEdgeTrap(m, view, size, k / 2);
      assert 2 * (k / 2) == k;
    }
  }

  /**
   * The start state is confined only for a sprite at most 150 pixels high. A 150x200
   * sprite drawn at `y = 440` in an 800x600 viewport is 40 pixels below the bottom limit;
   * from the first frame on it alternates between 438 and 440 and never comes back.
   */
  lemma TallSpriteStartsStranded()
    ensures var view, size := Box(800.0, 600.0), Box(150.0, 200.0);
      var m := Initial(view, 0.5, 44.0 / 45.0);
      && Fits(size, view)
      && m.y == 440.0
      && !Confined(m, view, size)
      && forall k: nat :: k % 2 == 0 ==> Frames(Step(m, view, size), view, size, k).y == 438.0
  {
    var view, size := Box(800.0, 600.0), Box(150.0, 200.0);
    var m := Initial(view, 0.5, 44.0 / 45.0);
    var first := Step(m, view, size);
    assert first.y == 438.0 && first.dy == -Speed;
    forall k: nat | k % 2 == 0
      ensures Frames(first, view, size, k).y == 438.0
    {
      BottomEdgeTrap(first, view, size, k / 2);
      assert 2 * (k / 2) == k;
    }
  }
}

=== FILE: panels.dfy ===
/**
 * The extension side of the GIF pet (src/extension.ts, lines 4 and 12-41):
 * the command `samgakee.create` keeps at most one webview panel, revealing
 * the stored one or creating and storing a new one, and the panel's dispose
 * handler forgets the stored panel. Panels are abstract handles; handle `k`
 * is the `k`-th panel ever created.
 */
module Extension {

  type Handle = nat

  datatype Option<T> = None | Some(value: T)

  /**
   * `current` is the module-level `currentPanel`; `created` counts the panels
   * created so far; `open` is the set of panels the host shows.
   */
  datatype Registry = Registry(current: Option<Handle>, created: nat, open: set<Handle>)

  /** What one invocation of the command did. */
  datatype Outcome = Revealed(handle: Handle) | Created(handle: Handle)

  /** What can happen in a session: the user runs the command, or closes the panel on screen. */
  datatype Action = RunCommand | ClosePanel

  /** The open panels are exactly the stored one, and every handle was issued by a creation. */
  predicate OnePanel(r: Registry) {
    && (forall h :: h in r.open ==> h < r.created)
    && r.open == (match r.current case Some(h) => {h} case None => {})
  }

  /** The state when the extension is activated: no panel stored. */
  function Activated(): (r: Registry)
    ensures OnePanel(r) && r.current == None && r.open == {}
  {
    Registry(None, 0, {})
  }

  /** The command handler. */
  function Invoke(r: Registry): (res: (Registry, Outcome))
    ensures res.0.current == Some(res.1.handle)
    ensures res.1.Revealed? <==> r.current.Some?
    ensures res.1.Revealed? ==> res.0 == r
    ensures res.1.Created? ==> res.0.created == r.created + 1 && res.0.open == r.open + {res.1.handle}
    ensures res.1.Created? ==> r.created <= res.1.handle
    ensures OnePanel(r) ==> OnePanel(res.0)
  {
    match r.current
    case Some(h) => (r, Revealed(h))
    case None =>
      var h := r.created;
      (Registry(Some(h), r.created + 1, r.open + {h}), Created(h))
  }

  /** The `onDidDispose` handler of panel `h`, which the host runs when `h` closes. */
  function Dispose(r: Registry, h: Handle): (r': Registry)
    requires h in r.open
    ensures r'.current == None && r'.created == r.created && r'.open == r.open - {h}
    ensures OnePanel(r) ==> OnePanel(r') && r'.open == {}
  {
    Registry(None, r.created, r.open - {h})
  }

  /** One user action; closing when no panel is on screen does nothing. */
  function Perform(r: Registry, a: Action): (s: Registry) {
    match a
    case RunCommand => Invoke(r).0
    case ClosePanel =>
      match r.current
      case Some(h) => if h in r.open then Dispose(r, h) else r
      case None => r
  }

  /** The registry after the actions of `acts`, oldest first. */
  function Session(r: Registry, acts: seq<Action>): (s: Registry)
    decreases |acts|
  {
    if acts == [] then r else Perform(Session(r, acts[..|acts| - 1]), acts[|acts| - 1])
  }

  /** Running the command while a panel is stored reveals that one and changes nothing. */
  lemma InvokeIdempotent(r: Registry)
    ensures var (r1, o1) := Invoke(r);
      Invoke(r1) == (r1, Revealed(o1.handle))
  {
  }

  /** After the stored panel is disposed, the next invocation creates one new panel, never seen before. */
  lemma ReopenCreatesFresh(r: Registry, h: Handle)
    requires OnePanel(r) && r.current == Some(h)
    ensures var (r1, o) := Invoke(Dispose(r, h));
      && o.Created? && o.handle != h && o.handle == r.created
      && r1.open == {o.handle} && r1.current == Some(o.handle)
  {
  }

  /** Through any session starting at activation, at most one panel is open and it is the stored one. */
  lemma {:induction false} SessionKeepsOnePanel(r: Registry, acts: seq<Action>)
    requires OnePanel(r)
    ensures OnePanel(Session(r, acts))
    ensures |Session(r, acts).open| <= 1
    decreases |acts|
  {
    if acts != [] {
      SessionKeepsOnePanel(r, acts[..|acts| - 1]);
    }
    var s := Session(r, acts);
    match s.current
    case Some(h) => assert s.open == {h};
    case None => assert s.open == {};
  }

  /** The host-side controller: `currentPanel` and the panels the host shows. */
  class Controller {
    var currentPanel: Option<Handle>
    var created: nat
    var open: set<Handle>

    function State(): Registry
      reads this
    {
      Registry(currentPanel, created, open)
    }

    /** `activate`: the command is registered and no panel exists yet. */
    constructor ()
      ensures State() == Activated()
    {
      currentPanel := None;
      created := 0;
      open := {};
    }

    /** The `samgakee.create` command. */
    method Command() returns (o: Outcome)
      modifies this
      ensures (State(), o) == Invoke(old(State()))
    {
      if currentPanel.Some? {
        o := Revealed(currentPanel.value);
        return;
      }
      var h := created;
      created := created + 1;
      open := open + {h};
      currentPanel := Some(h);
      o := Created(h);
    }

    /** The host closed panel `h` and ran its dispose handler. */
    method Disposed(h: Handle)
      requires h in open
      modifies this
      ensures State() == Dispose(old(State()), h)
    {
      open := open - {h};
      currentPanel := None;
    }
  }
}

=== FILE: sprite.dfy ===
/**
 * The webview script's state, updated in place as the script updates its
 * `let` variables (src/extension.ts, lines 87-120). Each method is proved to
 * produce the state that the corresponding function of module Bounce gives.
 */
module Webview {
  import opened Bounce

  class Sprite {
    var x: real
    var y: real
    var dx: real
    var dy: real

    /** The abstract value of the four variables. */
    function State(): Motion
      reads this
    {
      Motion(x, y, dx, dy)
    }

    /** The script's start: `rx` and `ry` are the two values drawn from `Math.random()`. */
    constructor (view: Box, rx: real, ry: real)
      requires 0.0 <= rx < 1.0 && 0.0 <= ry < 1.0
      ensures State() == Initial(view, rx, ry)
    {
      x := rx * (view.width - StartMargin);
      y := ry * (view.height - StartMargin);
      dx := Speed;
      dy := Speed;
    }

    /** One animation frame; `view` and `size` are the live viewport and sprite dimensions. */
    method Tick(view: Box, size: Box)
      modifies this
      ensures State() == Step(old(State()), view, size)
    {
      var maxX := view.width - size.width;
      var maxY := view.height - size.height;
      if x >= maxX || x <= 0.0 {
        dx := -dx;
      }
      if y >= maxY || y <= 0.0 {
        dy := -dy;
      }
      x := x + dx;
      y := y + dy;
    }

    /** The resize listener. */
    method Resize(view: Box, size: Box)
      modifies this
      ensures State() == Clamped(old(State()), view, size)
    {
      x := if x > 0.0 then x else 0.0;
      x := if x < view.width - size.width then x else view.width - size.width;
      y := if y > 0.0 then y else 0.0;
      y := if y < view.height - size.height then y else view.height - size.height;
    }

    /** `n` frames in a viewport that does not change. */
    method Animate(view: Box, size: Box, n: nat)
      modifies this
      ensures State() == Frames(old(State()), view, size, n)
    {
      var i := 0;
      while i < n
        invariant 0 <= i <= n
        invariant State() == Frames(old(State()), view, size, i)
      {
        Tick(view, size);
        i := i + 1;
      }
    }

    /** The frames and resize events of `es`, in order. */
    method Play(size: Box, es: seq<Event>)
      modifies this
      ensures State() == Run(old(State()), size, es)
    {
      var i := 0;
      while i < |es|
        invariant 0 <= i <= |es|
        invariant State() == Run(old(State()), size, es[..i])
      {
        assert es[..i + 1][..i] == es[..i];
        match es[i] {
          case Frame(view) => Tick(view, size);
          case Resized(view) => Resize(view, size);
        }
        i := i + 1;
      }
      assert es[..|es|] == es;
    }
  }
}
